=== FILE: README.md ===
# AdTrackSaver — a Dafny model of the dashboard's record logic

AdTrackSaver is a single-page dashboard for tracking competitor ad-library
links. Each monitored link carries a url, an ad count, a tag, a site, a list
of niche keys, the time it was added and a history of ad-count observations.
This project models the logic behind that page as immutable Dafny datatypes
and pure transition functions, and proves properties of them:

- **Dashboard** (`project/src/App.tsx`): the state is the record list, the
  search text, the position being edited and the edit buffer. The handlers
  are add, start edit, save edit, delete and search. The filtered view is
  derived from that state. The central invariant is that every stored
  record's history is non-empty and ends with its current count. Add, save
  and delete keep it, so every sequence of user events from the empty
  dashboard keeps it too.
- **Entry form** (`project/src/components/FormAdicionarLink.tsx`): the five
  fields, the digits-only filter on the count field, the niche toggle, the
  two closed enumerations, and submission. Submission validates the form,
  emits a candidate record and clears the form.
- **Card** (`project/src/components/LinkCard.tsx`): the trend shown beside
  each history entry and when the history list is shown. It also covers the
  niche-label lookup with its fallback to the raw key, and the single-field
  edits of the edit buffer.

Modules: `Wrappers` (Option/Result), `Text` (digit strings, decimal
rendering, lower-casing, `trim`, `includes`), `Seqs` (filtering a value or a
position out of a sequence, subsequences), `Catalog` (the enumerations),
`Record` (the record shape and its invariant), `Selection` (the niche
toggle), `Form`, `Card`, `Dashboard`, and `Scenarios` (worked examples).

Timestamps (`new Date().toLocaleString()`) are opaque string parameters of
add and save.

Behaviour of the code that the model keeps as written:

- The count field only accepts digit strings, and an empty count is
  submitted as 0 because `Number("")` is 0. The `isNaN` guard therefore
  never fires, and submit succeeds exactly when the url is non-empty
  (`Form.SubmitSucceedsIffUrl`).
- A record's niches are a list in selection order. Toggling filters out
  every copy of a key or appends it at the end.
- The tag drop-down also offers the empty placeholder, so the form can emit
  `""` as the tag.
- Starting an edit while another is in progress is not refused: the later
  start replaces the earlier one (`Dashboard.StartEditLastWins`).

## Model

| member | source | states |
|---|---|---|
| Text.DigitsValue | project/src/components/FormAdicionarLink.tsx:55 | the number read from a digit string is 0 exactly when every digit is '0' (the empty string included) |
| Text.Decimal | project/src/components/LinkCard.tsx:137 | the decimal text of a non-negative count below 10^21 is a non-empty digit string without leading zeros, starting with '0' only for the count 0 |
| Text.Lower | project/src/App.tsx:70 | lower-casing keeps the length, maps each character on its own and leaves no upper-case ASCII letter |
| Text.Trim | project/src/App.tsx:67 | the trimmed text is a contiguous piece of the query with only white space before and after it, and it neither starts nor ends with white space |
| Text.Includes | project/src/App.tsx:70 | every text includes the empty query, and no text includes a query longer than itself |
| Text.DigitsValueOfDecimal | project/src/components/LinkCard.tsx:137 | reading back the decimal text a card shows for a count gives that count |
| Text.DecimalOfDigitsValue | project/src/components/FormAdicionarLink.tsx:55 | a canonical digit string (no leading zero) is exactly the decimal text of the number `Number` reads from it |
| Text.TrimEmptyIffBlank | project/src/App.tsx:67 | `search.trim()` is empty exactly when the query consists only of white space and line terminators |
| Text.IncludesIffOccurs | project/src/App.tsx:70 | the left-to-right `includes` scan holds exactly when the needle occurs at some position of the text |
| Text.LowerIsIdempotent | project/src/App.tsx:70 | lower-casing an already lower-cased text changes nothing, so lower-casing both sides of a comparison is stable |
| Text.MissingCharExcludes | project/src/App.tsx:70 | a text that lacks the first character of a query cannot include the query |
| Seqs.RemoveAll | project/src/components/FormAdicionarLink.tsx:47 | filtering a key out removes every copy of it and keeps every other element with its multiplicity, never lengthening the list |
| Seqs.RemoveAllIsSubsequence | project/src/components/FormAdicionarLink.tsx:47 | the elements that survive the filter keep their relative order |
| Seqs.RemoveAllKeepsNoDuplicates | project/src/components/FormAdicionarLink.tsx:47 | filtering a list without repeats yields a list without repeats |
| Seqs.RemoveAt | project/src/App.tsx:64 | filtering by position removes exactly that position when it exists (length drops by one, the rest are the elements before and after it) and changes nothing otherwise |
| Seqs.RemoveAtIsSubsequence | project/src/App.tsx:64 | the records left after a delete keep their relative order |
| Catalog.FindIn | project/src/App.tsx:72 | `find` by key returns nothing exactly when no option has the key, and otherwise the first option that has it |
| Catalog.NicheKeysAreDistinct | project/src/components/FormAdicionarLink.tsx:24-32 | no two niche options share a key, so lookup by key is unambiguous |
| Catalog.NicheLabel | project/src/components/LinkCard.tsx:106 | the label shown for a niche key is the label of an option with that key, or the key itself, and always the key itself when no option has it |
| Catalog.NicheLabelOfKnownKey | project/src/components/LinkCard.tsx:106 | a listed niche key shows its option's label |
| Catalog.NicheLabelOfUnknownKey | project/src/components/LinkCard.tsx:106 | a key no option has shows the key itself, so the lookup never fails |
| Selection.Toggle | project/src/components/FormAdicionarLink.tsx:45-49 | toggling flips whether the key is selected, leaves every other key's membership as it was, and appends an absent key at the end |
| Selection.ToggleOffKeepsOrder | project/src/components/FormAdicionarLink.tsx:47 | deselecting a key keeps the other selected keys in their order |
| Selection.ToggleKeepsNoDuplicates | project/src/components/FormAdicionarLink.tsx:45-49 | a selection without repeated keys stays without repeats after any toggle |
| Selection.ToggleTwiceRestores | project/src/components/FormAdicionarLink.tsx:45-49 | toggling an absent key twice gives back the original selection |
| Form.SetUrl | project/src/components/FormAdicionarLink.tsx:86 | the url field takes any typed text and no other field changes |
| Form.SetCount | project/src/components/FormAdicionarLink.tsx:95 | the count field takes a new text exactly when it matches `^\d*$`; a text that does not match leaves the whole form unchanged, so the count only ever holds digits; no other field changes |
| Form.SetSite | project/src/components/FormAdicionarLink.tsx:104 | the site field takes any typed text and no other field changes |
| Form.SelectTag | project/src/components/FormAdicionarLink.tsx:114-120 | choosing the placeholder or a listed tag sets the tag and no other field |
| Form.ToggleNiche | project/src/components/FormAdicionarLink.tsx:130 | a niche button flips that key's membership in the selection, keeps every other key's membership, appends a newly chosen key at the end, and touches no other field |
| Form.ParseNumber | project/src/components/FormAdicionarLink.tsx:52-55 | `Number` yields a number for every digit string, with the empty string read as 0 |
| Form.Submit | project/src/components/FormAdicionarLink.tsx:51-66 | a candidate is emitted exactly when the url is non-empty and the count reads as a number; it carries the url, the count's value, tag, site and niches, and the form is then cleared; otherwise nothing is emitted and the form is unchanged |
| Form.ClearedIsWellFormed | project/src/components/FormAdicionarLink.tsx:39-43 | the initial form satisfies the form invariant |
| Form.InputsPreserveWellFormed | project/src/components/FormAdicionarLink.tsx:83-140 | every input event keeps the form invariant: digits-only count, placeholder or listed tag, listed niche keys without repeats |
| Form.SubmitPreservesWellFormed | project/src/components/FormAdicionarLink.tsx:60-64 | the form after submission, cleared or unchanged, still satisfies the invariant |
| Form.SubmitSucceedsIffUrl | project/src/components/FormAdicionarLink.tsx:52-55 | on every reachable form the numeric guard passes, so submit succeeds exactly when the url is non-empty, with the count's digit value and 0 for an empty count |
| Form.SubmittedCountRendersBack | project/src/components/FormAdicionarLink.tsx:55 | a count typed without leading zeros is stored as a number that renders back to the typed text |
| Card.TrendAt | project/src/components/LinkCard.tsx:143-145 | entry i is an increase, a decrease or unchanged exactly when its count is above, below or equal to entry i-1's; the first entry is always unchanged |
| Card.Trends | project/src/components/LinkCard.tsx:142-145 | the trend list has one trend per history entry, in history order |
| Card.ShowsHistory | project/src/components/LinkCard.tsx:140 | a consistent record whose card shows no history list has exactly one history entry, recording its current count |
| Card.DistinctStepsShowNoUnchanged | project/src/components/LinkCard.tsx:143-145 | when consecutive counts always differ, no entry after the first is shown as unchanged |
| Card.WithUrl | project/src/components/LinkCard.tsx:42 | editing the url changes only the url of the buffer; the history and all other fields are kept |
| Card.WithCount | project/src/components/LinkCard.tsx:47 | editing the count changes only the count of the buffer, never its history |
| Card.WithTags | project/src/components/LinkCard.tsx:54 | editing the tag changes only the tag of the buffer |
| Card.WithSite | project/src/components/LinkCard.tsx:63 | editing the site changes only the site of the buffer |
| Card.WithNicheToggled | project/src/components/LinkCard.tsx:73-78 | the edit-mode niche button flips the key's membership, keeps the other keys and leaves every other field, history included, unchanged |
| Card.CardToggleIsFormToggle | project/src/components/LinkCard.tsx:74-77 | the card's toggle gives the same niche list as the entry form's toggle |
| Dashboard.NewLink | project/src/App.tsx:28-31 | a new record copies the candidate's fields, is stamped with the time it was added, and has a one-entry history recording its count at that time |
| Dashboard.AddLink | project/src/App.tsx:26-33 | adding grows the list by one, keeps every earlier record in place, puts the new record last, leaves search and edit state alone, and keeps the history invariant |
| Dashboard.StartEdit | project/src/App.tsx:36-39 | starting an edit marks that position and copies its record into the buffer, leaving the list and search unchanged |
| Dashboard.StartEditLastWins | project/src/App.tsx:36-39 | starting a second edit discards the first: the result is the same as starting only the second |
| Dashboard.SetEditData | project/src/components/LinkCard.tsx:17 | a card edit replaces the buffer and changes nothing else |
| Dashboard.ResolvedHistory | project/src/App.tsx:46-49 | the saved history extends the stored record's history, by exactly one entry holding the new count and time when the count changed and by none otherwise |
| Dashboard.SaveEdit | project/src/App.tsx:41-61 | with no buffer or no position nothing changes; with a position past the end the handler fails; otherwise only that position is replaced (buffer fields plus resolved history), the length is kept, and edit state is cleared |
| Dashboard.SaveFromShownFormSucceeds | project/src/components/LinkCard.tsx:33-38 | while some shown card holds the edit form, that is, the edited position is below the number of shown cards, saving finds a stored record and never fails |
| Dashboard.SavePreservesInvariant | project/src/App.tsx:46-55 | if every stored history ends with its record's count, that still holds after a save |
| Dashboard.SaveWithSameCountKeepsHistory | project/src/App.tsx:47-49 | a save that leaves the count alone leaves the stored history exactly as it was, whatever other fields changed |
| Dashboard.SaveWithNewCountExtendsHistory | project/src/App.tsx:46-49 | a save with a new count adds exactly one history entry; on a consistent record the card then shows the history, and its last trend is never unchanged |
| Dashboard.FieldEditsKeepHistory | project/src/App.tsx:45-55 | starting an edit, changing only the url, tag or site, or toggling one niche, and saving stores the record with exactly that field changed (the niches becoming the toggled list) and every other field, history included, as it was |
| Dashboard.NewLinkShowsNoHistory | project/src/components/LinkCard.tsx:140 | a freshly added record has a single history entry, so its card shows no history list |
| Dashboard.Delete | project/src/App.tsx:63-65 | deleting a valid position removes exactly that record (length drops by one, the others keep their order); an out-of-range position changes nothing; search and edit state are untouched |
| Dashboard.DeleteUndoesAdd | project/src/App.tsx:23-65 | deleting the position of the record just added gives back the dashboard exactly as it was before the add |
| Dashboard.DeletePreservesInvariant | project/src/App.tsx:63-65 | deleting keeps every remaining record's history consistent with its count |
| Dashboard.SetSearch | project/src/App.tsx:92 | typing in the search box changes only the search text |
| Dashboard.NicheMatchesShownLabel | project/src/App.tsx:71-72 | a niche key matches exactly when some option has it (`find` yields nothing otherwise) and the label a card shows for it, lower-cased, contains the query |
| Dashboard.Matches | project/src/App.tsx:70-73 | every record matches the empty query, and a record without niches matches exactly when its lower-cased tag contains the lower-cased query |
| Dashboard.MatchesShownText | project/src/App.tsx:70-73 | a record matches exactly when its tag, or the label its card shows for one of its listed niche keys, contains the query, ignoring case |
| Dashboard.MatchesIgnoresQueryCase | project/src/App.tsx:70-72 | whether a record matches does not depend on the case of the query |
| Dashboard.Visible | project/src/App.tsx:67-75 | the view never holds more records than are stored, so every card position is a stored position, and every record in it is a stored record |
| Dashboard.FilterMatching | project/src/App.tsx:68-74 | the filter keeps exactly the stored records whose tag or niche label contains the query, ignoring case, each as many times as it is stored, and never more records than are stored |
| Dashboard.FilterIsSubsequence | project/src/App.tsx:68-74 | the filtered records appear in stored order |
| Dashboard.VisibleRecords | project/src/App.tsx:67-75 | a blank query shows the stored list unchanged; any other query shows a subsequence holding exactly the matching records, each as many times as it is stored |
| Dashboard.FilterWithoutMatchIsEmpty | project/src/App.tsx:68-74 | when no record matches, the filter keeps nothing |
| Dashboard.NoMatchShowsNothing | project/src/App.tsx:67-75 | a non-blank query that matches no record shows an empty view |
| Dashboard.BlankQueryAddressesShownRecord | project/src/App.tsx:106-118 | with a blank query the card at a view position is the stored record at that position, and editing it copies that record |
| Dashboard.FilteredViewCanAddressAnotherRecord | project/src/App.tsx:106-118 | with a query in force there is a state where the first card shows one record but its edit button copies a different one |
| Dashboard.SubmitForm | project/src/App.tsx:102 | pressing add hands the form's candidate, if any, to the add handler and leaves the list unchanged otherwise |
| Dashboard.SubmittedRecordStartsHistory | project/src/App.tsx:23-34 | a record added from a reachable form with a url is appended with the typed count and a one-entry history, and the form is cleared |
| Dashboard.Apply | project/src/App.tsx:23-75 | edit and delete events for a position with no card, and a save that fails, leave the dashboard unchanged; one event adds at most one record; only typing in the search box changes the search text |
| Dashboard.Run | project/src/App.tsx:23-75 | a sequence of events adds at most one record per event, and without search typing leaves the search text as it was |
| Dashboard.ApplyPreservesInvariant | project/src/App.tsx:23-75 | every single user action keeps each stored history consistent with its count |
| Dashboard.RunPreservesInvariant | project/src/App.tsx:23-75 | any sequence of user actions keeps each stored history consistent with its count |
| Dashboard.ReachableStatesHoldInvariant | project/src/App.tsx:18-21 | every state reachable from the empty dashboard satisfies the history invariant |
| Scenarios.AddEditEditScenario | project/src/App.tsx:23-61 | adding count 10, editing the count to 15 and then editing only the tag gives histories [10], [10, 15] and still [10, 15] |
| Scenarios.SearchByNicheLabel | project/src/App.tsx:67-75 | the query "ed" finds any record whose niche is "ed", whatever its tag, through the label "ED" its card shows |
| Scenarios.SearchWithoutMatch | project/src/App.tsx:67-75 | the query "zzz" does not show a record tagged "Testando" whose niche is "ed" |
| Scenarios.BlankSearchShowsAll | project/src/App.tsx:67-75 | a white-space query shows every stored record |

## Left out

- Rendering, CSS classes, `nicheColorMap` and the icon choice: presentation
  only.
- Dashboard.Apply: over-approximates the page. The card's
  `editingIndex === index` test is the only place the save button and the
  buffer inputs exist, and it hides edit and delete on the card being
  edited. `Dashboard.Apply` also accepts save and buffer edits when no card
  shows the edit form, and edit and delete on the card being edited. Every
  property proved for `Apply` and `Run` therefore also holds for the events
  the page can actually produce.
- Clocks: `new Date().toLocaleString()` becomes the `now` parameter of add
  and save.
- React's state scheduling: each handler is one atomic transition on the
  state it was rendered with.
- Text.Decimal: renders only non-negative counts, in plain digits. A count
  typed as "-3" in the card's number field is stored by `parseInt` as -3 and
  shown with its sign. JavaScript writes counts from 10^21 upward in exponent
  form ("1e+21"). Neither text is a digit string, and the model gives no
  rendering for either; counts from the entry form are always non-negative.
- Card.WithCount: takes the count as an integer; the `parseInt` of the edit
  field, which can yield NaN, is floating-point behaviour outside this model.
  A NaN count would also defeat the `!==` test in save, which the model does
  not capture.
- Form.ParseNumber: reads non-digit text as NaN, whereas JavaScript's
  `Number` also accepts surrounding white space, signs, decimals, exponents
  and hexadecimal. The count field never holds such text (`Form.SetCount`).
  Digit strings above 2^53 lose precision in JavaScript and are exact here.
  A digit string of roughly 310 or more digits becomes `Infinity` in
  JavaScript. `isNaN` lets it through, so `Infinity` is stored as the count;
  here it is an exact natural number.
- Text.Lower: lower-cases ASCII letters only, not the full Unicode case
  mapping of `toLowerCase`. Emoji and the listed labels' other characters
  are unaffected either way.
- Dashboard.StartEdit: requires a stored position. In JavaScript an
  out-of-range position would copy `{}` into the buffer, but edit buttons
  exist only for shown cards, whose positions are always stored positions
  (`Dashboard.Visible`). `Dashboard.Apply` ignores edit and
  delete events for positions with no card on screen.
- Dashboard.SaveEdit: a position left past the end by an earlier delete
  would make `original.adsCount` throw before any state is set. This is
  modelled as `Failure(StaleEditIndex)`, and `Dashboard.Apply` keeps the old
  state. The failure models the handler and cannot be reached from the
  page: the save button is shown only while the edited position is a shown
  card (`Dashboard.SaveFromShownFormSucceeds`). A
  stale position that still exists saves the buffer over whatever record now
  sits there. The model does exactly that and claims nothing stronger.
- Whether a card's view position addresses the record it shows: proved only
  for a blank query, and shown to fail otherwise
  (`Dashboard.FilteredViewCanAddressAnotherRecord`). The code does not
  provide it in general.

=== FILE: card.dfy ===
/** What a record's card derives and edits: the trend shown beside each
    history entry, whether the history is shown at all, and the
    single-field edits of the edit buffer. */
module Card {
  import opened Seqs
  import opened Record
  import opened Selection

  datatype Trend = Increase | Decrease | Unchanged

  /** The trend of entry `i`, compared with the entry before it; the first
      entry has no predecessor and is compared with itself. */
  function TrendAt(history: seq<HistoryEntry>, i: nat): (t: Trend)
    requires i < |history|
    ensures i == 0 ==> t == Unchanged
    ensures i > 0 ==> (t == Increase <==> history[i].count > history[i - 1].count)
    ensures i > 0 ==> (t == Decrease <==> history[i].count < history[i - 1].count)
    ensures i > 0 ==> (t == Unchanged <==> history[i].count == history[i - 1].count)
  {
    var previous := if i > 0 then history[i - 1].count else history[i].count;
    if history[i].count > previous then Increase
    else if history[i].count < previous then Decrease
    else Unchanged
  }

  /** The trend of every entry, in history order. */
  function Trends(history: seq<HistoryEntry>): (ts: seq<Trend>)
    ensures |ts| == |history|
    ensures forall i :: 0 <= i < |history| ==> ts[i] == TrendAt(history, i)
  {
    seq(|history|, i requires 0 <= i < |history| => TrendAt(history, i))
  }

  /** The history list is shown only when it holds more than one entry. */
  predicate ShowsHistory(link: Link)
    ensures HistoryConsistent(link) && !ShowsHistory(link) ==>
              link.adsHistory == [HistoryEntry(link.adsCount, link.adsHistory[0].changedAt)]
  {
    |link.adsHistory| > 1
  }

  /** In a history whose counts never repeat back to back, no entry after
      the first is shown as unchanged. */
  lemma DistinctStepsShowNoUnchanged(history: seq<HistoryEntry>)
    requires forall i :: 0 < i < |history| ==> history[i].count != history[i - 1].count
    ensures forall i :: 0 < i < |history| ==> Trends(history)[i] != Unchanged
  {
  }

  // ---------------------------------------------------------------------
  // Edits of the edit buffer
  // ---------------------------------------------------------------------

  function WithUrl(d: Link, text: string): (r: Link)
    ensures r.url == text
    ensures r.adsCount == d.adsCount && r.adsHistory == d.adsHistory && r.tags == d.tags
    ensures r.site == d.site && r.addedAt == d.addedAt && r.niches == d.niches
  {
    d.(url := text)
  }

  function WithTags(d: Link, choice: string): (r: Link)
    ensures r.tags == choice
    ensures r.url == d.url && r.adsCount == d.adsCount && r.adsHistory == d.adsHistory
    ensures r.site == d.site && r.addedAt == d.addedAt && r.niches == d.niches
  {
    d.(tags := choice)
  }

  function WithSite(d: Link, text: string): (r: Link)
    ensures r.site == text
    ensures r.url == d.url && r.adsCount == d.adsCount && r.adsHistory == d.adsHistory
    ensures r.tags == d.tags && r.addedAt == d.addedAt && r.niches == d.niches
  {
    d.(site := text)
  }

  /** The count field; the text-to-number step is not part of this model. */
  function WithCount(d: Link, count: int): (r: Link)
    ensures r.adsCount == count
    ensures r.url == d.url && r.adsHistory == d.adsHistory && r.tags == d.tags
    ensures r.site == d.site && r.addedAt == d.addedAt && r.niches == d.niches
  {
    d.(adsCount := count)
  }

  /** The edit-mode niche button: the same toggle as the entry form's. */
  function WithNicheToggled(d: Link, key: string): (r: Link)
    ensures key in r.niches <==> key !in d.niches
    ensures forall i :: 0 <= i < |r.niches| && r.niches[i] != key ==> r.niches[i] in d.niches
    ensures forall i :: 0 <= i < |d.niches| && d.niches[i] != key ==> d.niches[i] in r.niches
    ensures r.url == d.url && r.adsCount == d.adsCount && r.adsHistory == d.adsHistory
    ensures r.tags == d.tags && r.site == d.site && r.addedAt == d.addedAt
  {
    var present := key in d.niches;
    d.(niches := if present then RemoveAll(d.niches, key) else d.niches + [key])
  }

  /** The card's toggle and the form's toggle agree. */
  lemma CardToggleIsFormToggle(d: Link, key: string)
    ensures WithNicheToggled(d, key).niches == Toggle(d.niches, key)
  {
  }
}

=== FILE: catalog.dfy ===
/** The two closed enumerations of the entry form: the tag choices and the
    niche choices, and the lookup of a niche's display label by its key. */
module Catalog {
  import opened Wrappers

  /** One niche choice: `key` is what a record stores, `caption` is the label shown. */
  datatype NicheOption = NicheOption(caption: string, key: string)

  const Tags: seq<string> := [
    "Muito escalado",
    "Testando",
    "Novo criativo",
    "Campanha antiga",
    "Top 1 concorrente"
  ]

  const Niches: seq<NicheOption> := [
    NicheOption("Emagrecimento \U{1F957}", "emagrecimento"),
    NicheOption("ED \U{1F346}", "ed"),
    NicheOption("Diabetes \U{1FA78}", "diabetes"),
    NicheOption("Pr\U{F3}stata \U{1F474}", "prostata"),
    NicheOption("Neuropatia \U{26A1}", "neuropatia"),
    NicheOption("Receitas \U{1F37D}\U{FE0F}", "receitas"),
    NicheOption("Low Ticket \U{1F4B8}", "low_ticket")
  ]

  predicate IsNicheKey(key: string) {
    exists i :: 0 <= i < |Niches| && Niches[i].key == key
  }

  /** `options.find((n) => n.key === key)`: the first option with that key. */
  function FindIn(options: seq<NicheOption>, key: string): (r: Option<NicheOption>)
    ensures r.None? <==> forall i :: 0 <= i < |options| ==> options[i].key != key
    ensures r.Some? ==> exists i :: 0 <= i < |options| && options[i] == r.value
                          && r.value.key == key
                          && forall j :: 0 <= j < i ==> options[j].key != key
  {
    if |options| == 0 then None
    else if options[0].key == key then Some(options[0])
    else FindIn(options[1..], key)
  }

  function FindNiche(key: string): Option<NicheOption> {
    FindIn(Niches, key)
  }

  /** The text a card shows for a stored niche key: the option's label, or
      the raw key when no option has that key (or its label is empty). */
  function NicheLabel(key: string): (r: string)
    ensures r == key || exists i :: 0 <= i < |Niches| && Niches[i].key == key && Niches[i].caption == r
    ensures !IsNicheKey(key) ==> r == key
  {
    match FindNiche(key)
    case Some(n) => if n.caption != "" then n.caption else key
    case None => key
  }

  lemma NicheKeysAreDistinct()
    ensures forall i, j :: 0 <= i < j < |Niches| ==> Niches[i].key != Niches[j].key
  {
  }

  /** A listed key shows its option's label. */
  lemma NicheLabelOfKnownKey(i: nat)
    requires i < |Niches|
    ensures NicheLabel(Niches[i].key) == Niches[i].caption
  {
    NicheKeysAreDistinct();
  }

  /** A key no option has shows itself: the lookup never fails. */
  lemma NicheLabelOfUnknownKey(key: string)
    requires !IsNicheKey(key)
    ensures NicheLabel(key) == key
  {
  }
}

=== FILE: dashboard.dfy ===
/** The dashboard: the ordered list of records, the search text, and the
    position and scratch copy of the record being edited, with the event
    handlers that change them and the filtered view derived from them. */
module Dashboard {
  import opened Wrappers
  import opened Text
  import opened Seqs
  import opened Catalog
  import opened Record
  import Card
  import Form
  import Selection

  datatype State = State(
    links: seq<Link>,
    search: string,
    editingIndex: Option<nat>,
    editData: Option<Link>
  )

  const Initial := State([], "", None, None)

  /** Saving an edit whose position no longer exists reads a field of
      `undefined`, which throws before any state is set. */
  datatype SaveFault = StaleEditIndex

  /** Every stored record keeps its history consistent with its count. */
  predicate Invariant(s: State) {
    AllConsistent(s.links)
  }

  // ---------------------------------------------------------------------
  // Add
  // ---------------------------------------------------------------------

  /** The record made from a form candidate at time `now`. */
  function NewLink(c: Candidate, now: string): (l: Link)
    ensures l.url == c.url && l.adsCount == c.adsCount && l.tags == c.tags
    ensures l.site == c.site && l.niches == c.niches && l.addedAt == now
    ensures |l.adsHistory| == 1
    ensures l.adsHistory[0].count == l.adsCount && l.adsHistory[0].changedAt == l.addedAt
  {
    Link(c.url, c.adsCount, [HistoryEntry(c.adsCount, now)], c.tags, c.site, now, c.niches)
  }

  function AddLink(s: State, c: Candidate, now: string): (r: State)
    ensures |r.links| == |s.links| + 1
    ensures r.links[..|s.links|] == s.links
    ensures r.links[|s.links|] == NewLink(c, now)
    ensures r.search == s.search && r.editingIndex == s.editingIndex && r.editData == s.editData
    ensures Invariant(s) ==> Invariant(r)
  {
    s.(links := s.links + [NewLink(c, now)])
  }

  // ---------------------------------------------------------------------
  // Edit
  // ---------------------------------------------------------------------

  /** Copies record `index` into the edit buffer; a later call replaces an
      edit already in progress. */
  function StartEdit(s: State, index: nat): (r: State)
    requires index < |s.links|
    ensures r.editingIndex == Some(index) && r.editData == Some(s.links[index])
    ensures r.links == s.links && r.search == s.search
  {
    s.(editingIndex := Some(index), editData := Some(s.links[index]))
  }

  /** Starting an edit while another is in progress discards the earlier
      one: only the last start counts. */
  lemma StartEditLastWins(s: State, first: nat, second: nat)
    requires first < |s.links| && second < |s.links|
    ensures StartEdit(StartEdit(s, first), second) == StartEdit(s, second)
  {
  }

  /** The card's edit fields replace the whole edit buffer. */
  function SetEditData(s: State, d: Link): (r: State)
    ensures r.editData == Some(d)
    ensures r.links == s.links && r.search == s.search && r.editingIndex == s.editingIndex
  {
    s.(editData := Some(d))
  }

  /** The history a saved record gets: the stored record's history, with
      one entry appended when the edited count differs from the stored one. */
  function ResolvedHistory(original: Link, edited: Link, now: string): (h: seq<HistoryEntry>)
    ensures original.adsHistory <= h
    ensures |h| == |original.adsHistory| + (if edited.adsCount != original.adsCount then 1 else 0)
    ensures |h| > |original.adsHistory| ==> h[|h| - 1] == HistoryEntry(edited.adsCount, now)
  {
    if edited.adsCount != original.adsCount then
      original.adsHistory + [HistoryEntry(edited.adsCount, now)]
    else
      original.adsHistory
  }

  function SaveEdit(s: State, now: string): (r: Result<State, SaveFault>)
    ensures s.editData.None? || s.editingIndex.None? ==> r == Success(s)
    ensures s.editData.Some? && s.editingIndex.Some? && s.editingIndex.value >= |s.links|
            ==> r == Failure(StaleEditIndex)
    ensures s.editData.Some? && s.editingIndex.Some? && s.editingIndex.value < |s.links| ==>
              && r.Success?
              && |r.value.links| == |s.links|
              && (forall j :: 0 <= j < |s.links| && j != s.editingIndex.value ==> r.value.links[j] == s.links[j])
              && r.value.links[s.editingIndex.value]
                   == s.editData.value.(adsHistory := ResolvedHistory(s.links[s.editingIndex.value], s.editData.value, now))
              && r.value.editingIndex.None? && r.value.editData.None?
              && r.value.search == s.search
  {
    match (s.editData, s.editingIndex)
    case (Some(d), Some(i)) =>
      if i < |s.links| then
        var original := s.links[i];
        Success(State(s.links[i := d.(adsHistory := ResolvedHistory(original, d, now))], s.search, None, None))
      else
        Failure(StaleEditIndex)
    case _ => Success(s)
  }

  // ---------------------------------------------------------------------
  // Delete
  // ---------------------------------------------------------------------

  /** Drops record `index`; the edit state is left as it is. */
  function Delete(s: State, index: nat): (r: State)
    ensures index < |s.links| ==> |r.links| == |s.links| - 1
    ensures index < |s.links| ==> r.links == s.links[..index] + s.links[index + 1..]
    ensures index >= |s.links| ==> r.links == s.links
    ensures r.search == s.search && r.editingIndex == s.editingIndex && r.editData == s.editData
  {
    s.(links := RemoveAt(s.links, index))
  }

  // ---------------------------------------------------------------------
  // Search
  // ---------------------------------------------------------------------

  function SetSearch(s: State, text: string): (r: State)
    ensures r.search == text && r.links == s.links
    ensures r.editingIndex == s.editingIndex && r.editData == s.editData
  {
    s.(search := text)
  }

  /** The label of a stored niche key matches a lower-cased query; keys
      with no listed option never match. */
  predicate NicheMatches(key: string, lowerQuery: string)
  {
    match FindNiche(key)
    case Some(n) => Includes(Lower(n.caption), lowerQuery)
    case None => false
  }

  /** A record matches when its tag, or the label of one of its niches,
      contains the query, ignoring case. */
  predicate Matches(link: Link, query: string)
    ensures query == [] ==> Matches(link, query)
    ensures |link.niches| == 0 ==> (Matches(link, query) <==> Includes(Lower(link.tags), Lower(query)))
  {
    || Includes(Lower(link.tags), Lower(query))
    || exists j :: 0 <= j < |link.niches| && NicheMatches(link.niches[j], Lower(query))
  }

  function FilterMatching(links: seq<Link>, query: string): (r: seq<Link>)
    ensures |r| <= |links|
    ensures forall i :: 0 <= i < |r| ==> r[i] in links && Matches(r[i], query)
    ensures forall i :: 0 <= i < |links| && Matches(links[i], query) ==> links[i] in r
    ensures forall l :: multiset(r)[l] == (if Matches(l, query) then multiset(links)[l] else 0)
  {
    assert |links| > 0 ==> links == [links[0]] + links[1..];
    if |links| == 0 then []
    else if Matches(links[0], query) then [links[0]] + FilterMatching(links[1..], query)
    else FilterMatching(links[1..], query)
  }

  /** The records the dashboard shows: all of them for a blank query,
      otherwise the matching ones. */
  function Visible(s: State): (r: seq<Link>)
    ensures |r| <= |s.links|
    ensures forall i :: 0 <= i < |r| ==> r[i] in s.links
  {
    if Trim(s.search) != "" then FilterMatching(s.links, s.search) else s.links
  }

  // ---------------------------------------------------------------------
  // Properties
  // ---------------------------------------------------------------------

  lemma InitialHoldsInvariant()
    ensures Invariant(Initial)
  {
  }

  /** Saving keeps every record's history consistent with its count, and
      the saved record's history ends with the edited count. */
  lemma SavePreservesInvariant(s: State, now: string)
    requires Invariant(s)
    ensures SaveEdit(s, now).Success? ==> Invariant(SaveEdit(s, now).value)
  {
    if s.editData.Some? && s.editingIndex.Some? && s.editingIndex.value < |s.links| {
      var i := s.editingIndex.value;
      var t := SaveEdit(s, now).value;
      assert HistoryConsistent(s.links[i]);
      assert HistoryConsistent(t.links[i]);
    }
  }

  lemma DeletePreservesInvariant(s: State, index: nat)
    requires Invariant(s)
    ensures Invariant(Delete(s, index))
  {
    var r := Delete(s, index).links;
    if index < |s.links| {
      forall j | 0 <= j < |r| ensures HistoryConsistent(r[j]) {
        if j < index { assert r[j] == s.links[j]; } else { assert r[j] == s.links[j + 1]; }
      }
    }
  }

  /** Saving an edit that left the count alone leaves the history alone,
      whatever else the edit changed. */
  lemma SaveWithSameCountKeepsHistory(s: State, now: string)
    requires s.editData.Some? && s.editingIndex.Some? && s.editingIndex.value < |s.links|
    requires s.editData.value.adsCount == s.links[s.editingIndex.value].adsCount
    ensures SaveEdit(s, now).value.links[s.editingIndex.value].adsHistory
            == s.links[s.editingIndex.value].adsHistory
  {
  }

  /** Saving a changed count grows the history by exactly one entry, and on
      a consistent record that entry is shown, and never as unchanged. */
  lemma SaveWithNewCountExtendsHistory(s: State, now: string)
    requires Invariant(s)
    requires s.editData.Some? && s.editingIndex.Some? && s.editingIndex.value < |s.links|
    requires s.editData.value.adsCount != s.links[s.editingIndex.value].adsCount
    ensures var h := SaveEdit(s, now).value.links[s.editingIndex.value].adsHistory;
            && |h| == |s.links[s.editingIndex.value].adsHistory| + 1
            && Card.ShowsHistory(SaveEdit(s, now).value.links[s.editingIndex.value])
            && Card.TrendAt(h, |h| - 1) != Card.Unchanged
  {
    var i := s.editingIndex.value;
    assert HistoryConsistent(s.links[i]);
  }

  /** Deleting the record just added gives back the list as it was. */
  lemma DeleteUndoesAdd(s: State, c: Candidate, now: string)
    ensures Delete(AddLink(s, c, now), |s.links|) == s
  {
    var r := AddLink(s, c, now);
    assert r.links[..|s.links|] + r.links[|s.links| + 1..] == s.links;
  }

  /** Editing the url, tag, site or niches of the record being edited and
      saving changes that field but never the stored history. */
  lemma FieldEditsKeepHistory(s: State, index: nat, text: string, key: string, now: string)
    requires index < |s.links|
    ensures var e := StartEdit(s, index);
            && SaveEdit(SetEditData(e, Card.WithUrl(e.editData.value, text)), now).value.links[index]
               == s.links[index].(url := text)
            && SaveEdit(SetEditData(e, Card.WithTags(e.editData.value, text)), now).value.links[index]
               == s.links[index].(tags := text)
            && SaveEdit(SetEditData(e, Card.WithSite(e.editData.value, text)), now).value.links[index]
               == s.links[index].(site := text)
            && SaveEdit(SetEditData(e, Card.WithNicheToggled(e.editData.value, key)), now).value.links[index]
               == s.links[index].(niches := Selection.Toggle(s.links[index].niches, key))
  {
  }

  /** A record just added shows no history list. */
  lemma NewLinkShowsNoHistory(c: Candidate, now: string)
    ensures !Card.ShowsHistory(NewLink(c, now))
  {
  }

  /** Search looks at the same label the card shows: a niche key matches
      exactly when some option has it and its shown label, lower-cased,
      contains the query. */
  lemma NicheMatchesShownLabel(key: string, lowerQuery: string)
    ensures NicheMatches(key, lowerQuery) <==> IsNicheKey(key) && Includes(Lower(NicheLabel(key)), lowerQuery)
  {
    match FindNiche(key)
    case None =>
    case Some(n) =>
      var i :| 0 <= i < |Niches| && Niches[i] == n;
      NicheLabelOfKnownKey(i);
  }

  /** A record matches exactly when its tag, or the label its card shows
      for one of its listed niche keys, contains the query, ignoring case. */
  lemma MatchesShownText(link: Link, query: string)
    ensures Matches(link, query) <==>
              || Includes(Lower(link.tags), Lower(query))
              || exists j :: 0 <= j < |link.niches| && IsNicheKey(link.niches[j])
                               && Includes(Lower(NicheLabel(link.niches[j])), Lower(query))
  {
    forall j | 0 <= j < |link.niches|
      ensures NicheMatches(link.niches[j], Lower(query)) <==>
                IsNicheKey(link.niches[j]) && Includes(Lower(NicheLabel(link.niches[j])), Lower(query))
    {
      NicheMatchesShownLabel(link.niches[j], Lower(query));
    }
  }

  /** Matching ignores the case of the query. */
  lemma MatchesIgnoresQueryCase(link: Link, query: string)
    ensures Matches(link, query) <==> Matches(link, Lower(query))
  {
    LowerIsIdempotent(query);
  }

  /** The filtered view keeps records in stored order. */
  lemma {:induction false} FilterIsSubsequence(links: seq<Link>, query: string)
    ensures IsSubsequence(FilterMatching(links, query), links)
  {
    if |links| > 0 {
      FilterIsSubsequence(links[1..], query);
      SubsequenceCons(links[0], FilterMatching(links[1..], query), links[1..]);
      assert [links[0]] + links[1..] == links;
    }
  }

  /** A blank query shows every record; any other query shows the matching
      records, in stored order. */
  lemma VisibleRecords(s: State)
    ensures IsBlank(s.search) ==> Visible(s) == s.links
    ensures !IsBlank(s.search) ==> IsSubsequence(Visible(s), s.links)
    ensures !IsBlank(s.search) ==>
              forall l :: l in Visible(s) <==> l in s.links && Matches(l, s.search)
    ensures !IsBlank(s.search) ==>
              forall l :: multiset(Visible(s))[l] == (if Matches(l, s.search) then multiset(s.links)[l] else 0)
  {
    TrimEmptyIffBlank(s.search);
    FilterIsSubsequence(s.links, s.search);
  }

  lemma {:induction false} FilterWithoutMatchIsEmpty(links: seq<Link>, query: string)
    requires forall i :: 0 <= i < |links| ==> !Matches(links[i], query)
    ensures FilterMatching(links, query) == []
  {
    if |links| > 0 {
      FilterWithoutMatchIsEmpty(links[1..], query);
    }
  }

  /** A non-blank query that no record matches shows nothing. */
  lemma NoMatchShowsNothing(s: State)
    requires !IsBlank(s.search)
    requires forall i :: 0 <= i < |s.links| ==> !Matches(s.links[i], s.search)
    ensures Visible(s) == []
  {
    TrimEmptyIffBlank(s.search);
    FilterWithoutMatchIsEmpty(s.links, s.search);
  }

  /** With a blank query the card at view position `i` is stored record `i`,
      so edit and delete address the record the user sees. */
  lemma BlankQueryAddressesShownRecord(s: State, viewIndex: nat)
    requires IsBlank(s.search) && viewIndex < |Visible(s)|
    ensures Visible(s)[viewIndex] == s.links[viewIndex]
    ensures StartEdit(s, viewIndex).editData == Some(Visible(s)[viewIndex])
  {
    VisibleRecords(s);
  }

  /** The save button exists only on the card whose view position is the
      edited position, so a save pressed on the page always finds a stored
      record there and never fails. */
  lemma SaveFromShownFormSucceeds(s: State, now: string)
    ensures s.editingIndex.Some? && s.editingIndex.value < |Visible(s)| ==> SaveEdit(s, now).Success?
  {
  }

  /** The query "t" misses a record with no tag and no niches, and finds
      any record tagged "Testando". */
  lemma QueryMatchesSecondOnly(a: Link, b: Link)
    requires a.tags == "" && a.niches == []
    requires b.tags == "Testando"
    ensures !Matches(a, "t") && Matches(b, "t")
  {
    assert Lower("Testando")[0] == 't';
  }

  /** Of two stored records, only the second of which matches a non-blank
      query, the view shows just the second. */
  lemma ViewOfSecondMatch(a: Link, b: Link, query: string)
    requires !IsBlank(query) && !Matches(a, query) && Matches(b, query)
    ensures Visible(State([a, b], query, None, None)) == [b]
  {
    TrimEmptyIffBlank(query);
    assert [b][1..] == [];
    assert FilterMatching([b], query) == [b];
    assert [a, b][1..] == [b];
    assert FilterMatching([a, b], query) == FilterMatching([b], query);
  }

  /** With a query in force, the card at a view position can be a different
      record from the stored one at that position: the first card shows the
      second stored record, but its edit button copies the first. */
  lemma FilteredViewCanAddressAnotherRecord() returns (s: State)
    ensures |Visible(s)| > 0 && |s.links| > 0
    ensures Visible(s)[0] != s.links[0]
    ensures StartEdit(s, 0).editData != Some(Visible(s)[0])
  {
    var a := NewLink(Candidate("http://a", 1, "", "", []), "T0");
    var b := NewLink(Candidate("http://b", 2, "Testando", "", []), "T0");
    s := State([a, b], "t", None, None);
    assert !IsSpace("t"[0]);
    QueryMatchesSecondOnly(a, b);
    ViewOfSecondMatch(a, b, "t");
  }

  // ---------------------------------------------------------------------
  // The form feeding the dashboard, and sequences of user events
  // ---------------------------------------------------------------------

  /** Pressing the form's add button: a candidate, if the form emits one,
      is added to the list. */
  function SubmitForm(s: State, f: Form.FormState, now: string): (r: (State, Form.FormState))
    ensures r.1 == Form.Submit(f).form
    ensures Form.Submit(f).emitted.None? ==> r.0 == s
    ensures Form.Submit(f).emitted.Some? ==> r.0 == AddLink(s, Form.Submit(f).emitted.value, now)
  {
    var sub := Form.Submit(f);
    match sub.emitted
    case Some(c) => (AddLink(s, c, now), sub.form)
    case None => (s, sub.form)
  }

  /** A record added from a reachable form with a url carries the typed
      count as its only history entry. */
  lemma SubmittedRecordStartsHistory(s: State, f: Form.FormState, now: string)
    requires Form.WellFormed(f) && f.url != ""
    ensures var r := SubmitForm(s, f, now).0;
            && |r.links| == |s.links| + 1
            && r.links[|s.links|].adsCount == DigitsValue(f.count)
            && r.links[|s.links|].adsHistory == [HistoryEntry(DigitsValue(f.count), now)]
            && SubmitForm(s, f, now).1 == Form.Cleared
  {
    Form.SubmitSucceedsIffUrl(f);
  }

  /** One user action on the dashboard. */
  datatype Event =
    | Add(candidate: Candidate, now: string)
    | Edit(viewIndex: nat)
    | EditBuffer(data: Link)
    | Save(now: string)
    | Remove(viewIndex: nat)
    | Query(text: string)

  /** The state after one action. Edit and delete buttons exist only for
      shown cards, and they pass the card's view position;
      a save that throws leaves the state as it was. */
  function Apply(s: State, e: Event): (r: State)
    ensures e.Edit? && e.viewIndex >= |Visible(s)| ==> r == s
    ensures e.Remove? && e.viewIndex >= |Visible(s)| ==> r == s
    ensures e.Save? && SaveEdit(s, e.now).Failure? ==> r == s
    ensures |r.links| <= |s.links| + 1
    ensures !e.Query? ==> r.search == s.search
  {
    match e
    case Add(c, now) => AddLink(s, c, now)
    case Edit(i) => if i < |Visible(s)| then StartEdit(s, i) else s
    case EditBuffer(d) => SetEditData(s, d)
    case Save(now) => (match SaveEdit(s, now) case Success(t) => t case Failure(_) => s)
    case Remove(i) => if i < |Visible(s)| then Delete(s, i) else s
    case Query(text) => SetSearch(s, text)
  }

  /** The state after a sequence of actions: each adds at most one record,
      and only typing in the search box changes the search text. */
  function Run(s: State, events: seq<Event>): (r: State)
    ensures |r.links| <= |s.links| + |events|
    ensures (forall i :: 0 <= i < |events| ==> !events[i].Query?) ==> r.search == s.search
    decreases |events|
  {
    if |events| == 0 then s else Run(Apply(s, events[0]), events[1..])
  }

  lemma ApplyPreservesInvariant(s: State, e: Event)
    requires Invariant(s)
    ensures Invariant(Apply(s, e))
  {
    match e
    case Save(now) => SavePreservesInvariant(s, now);
    case Remove(i) => DeletePreservesInvariant(s, i);
    case _ =>
  }

  /** Whatever the user does, starting from the empty dashboard, every
      stored record's history ends with its current count. */
  lemma {:induction false} RunPreservesInvariant(s: State, events: seq<Event>)
    requires Invariant(s)
    ensures Invariant(Run(s, events))
    decreases |events|
  {
    if |events| > 0 {
      ApplyPreservesInvariant(s, events[0]);
      RunPreservesInvariant(Apply(s, events[0]), events[1..]);
    }
  }

  lemma ReachableStatesHoldInvariant(events: seq<Event>)
    ensures Invariant(Run(Initial, events))
  {
    InitialHoldsInvariant();
    RunPreservesInvariant(Initial, events);
  }
}

=== FILE: form.dfy ===
/** The entry form: five input fields, the digits-only count filter, the
    niche toggle, and submission, which validates, emits a candidate and
    clears the form. */
module Form {
  import opened Wrappers
  import opened Text
  import opened Seqs
  import opened Catalog
  import opened Record
  import opened Selection

  /** The form's fields: url text, count text, chosen tag, site text and
      the selected niche keys in selection order. */
  datatype FormState = FormState(
    url: string,
    count: string,
    tags: string,
    site: string,
    selected: seq<string>
  )

  /** The form as it starts and as a successful submit leaves it. */
  const Cleared := FormState("", "", "", "", [])

  /** What every form the user can reach satisfies: the count holds digits
      only, the tag is the placeholder or a listed tag, and the selection
      holds listed niche keys without repetition. */
  predicate WellFormed(f: FormState) {
    && AllDigits(f.count)
    && (f.tags == "" || f.tags in Tags)
    && NoDuplicates(f.selected)
    && forall i :: 0 <= i < |f.selected| ==> IsNicheKey(f.selected[i])
  }

  function SetUrl(f: FormState, text: string): (r: FormState)
    ensures r.url == text && r.(url := f.url) == f
  {
    f.(url := text)
  }

  function SetSite(f: FormState, text: string): (r: FormState)
    ensures r.site == text && r.(site := f.site) == f
  {
    f.(site := text)
  }

  /** The tag drop-down offers the empty placeholder and the listed tags. */
  function SelectTag(f: FormState, choice: string): (r: FormState)
    requires choice == "" || choice in Tags
    ensures r.tags == choice && r.(tags := f.tags) == f
  {
    f.(tags := choice)
  }

  /** The count field takes a new text only when it matches `^\d*$`. */
  function SetCount(f: FormState, text: string): (r: FormState)
    ensures AllDigits(f.count) ==> AllDigits(r.count)
    ensures r.count == text <==> AllDigits(text) || text == f.count
    ensures !AllDigits(text) ==> r == f
    ensures r.(count := f.count) == f
  {
    if AllDigits(text) then f.(count := text) else f
  }

  /** The niche buttons offer the listed keys. */
  function ToggleNiche(f: FormState, key: string): (r: FormState)
    requires IsNicheKey(key)
    ensures key in r.selected <==> key !in f.selected
    ensures forall k :: k != key ==> (k in r.selected <==> k in f.selected)
    ensures key !in f.selected ==> r.selected == f.selected + [key]
    ensures r.(selected := f.selected) == f
  {
    f.(selected := Toggle(f.selected, key))
  }

  /** `Number(text)` on a digit string, `None` standing for NaN. */
  function ParseNumber(text: string): (r: Option<nat>)
    ensures r.Some? <==> AllDigits(text)
    ensures text == "" ==> r == Some(0)
  {
    if AllDigits(text) then Some(DigitsValue(text)) else None
  }

  /** The outcome of pressing the add button: the candidate handed to the
      dashboard, if any, and the form afterwards. */
  datatype Submission = Submission(emitted: Option<Candidate>, form: FormState)

  function Submit(f: FormState): (r: Submission)
    ensures r.emitted.Some? <==> f.url != "" && ParseNumber(f.count).Some?
    ensures r.emitted.Some? ==> r.form == Cleared
    ensures r.emitted.None? ==> r.form == f
    ensures r.emitted.Some? ==>
              && r.emitted.value.url == f.url
              && r.emitted.value.adsCount == ParseNumber(f.count).value
              && r.emitted.value.tags == f.tags
              && r.emitted.value.site == f.site
              && r.emitted.value.niches == f.selected
  {
    if f.url != "" && ParseNumber(f.count).Some? then
      Submission(
        Some(Candidate(f.url, ParseNumber(f.count).value, f.tags, f.site, f.selected)),
        Cleared)
    else
      Submission(None, f)
  }

  // ---------------------------------------------------------------------
  // Properties
  // ---------------------------------------------------------------------

  lemma ClearedIsWellFormed()
    ensures WellFormed(Cleared)
  {
  }

  /** Every input event keeps the form well formed. */
  lemma InputsPreserveWellFormed(f: FormState, text: string, key: string)
    requires WellFormed(f)
    ensures WellFormed(SetUrl(f, text))
    ensures WellFormed(SetSite(f, text))
    ensures WellFormed(SetCount(f, text))
    ensures text == "" || text in Tags ==> WellFormed(SelectTag(f, text))
    ensures IsNicheKey(key) ==> WellFormed(ToggleNiche(f, key))
  {
    if IsNicheKey(key) {
      ToggleKeepsNoDuplicates(f.selected, key);
      var s := Toggle(f.selected, key);
      forall i | 0 <= i < |s| ensures IsNicheKey(s[i]) {
        if s[i] != key {
          var j :| 0 <= j < |f.selected| && f.selected[j] == s[i];
        }
      }
    }
  }

  lemma SubmitPreservesWellFormed(f: FormState)
    requires WellFormed(f)
    ensures WellFormed(Submit(f).form)
  {
  }

  /** On a reachable form the numeric check never fails: submission
      succeeds exactly when the url is non-empty, and an empty count is
      submitted as 0. */
  lemma SubmitSucceedsIffUrl(f: FormState)
    requires WellFormed(f)
    ensures Submit(f).emitted.Some? <==> f.url != ""
    ensures f.url != "" ==> Submit(f).emitted.value.adsCount == DigitsValue(f.count)
    ensures f.url != "" && f.count == "" ==> Submit(f).emitted.value.adsCount == 0
  {
  }

  /** A count typed as a canonical number is submitted as that number. */
  lemma SubmittedCountRendersBack(f: FormState)
    requires WellFormed(f) && f.url != "" && Canonical(f.count)
    ensures Decimal(Submit(f).emitted.value.adsCount) == f.count
  {
    DecimalOfDigitsValue(f.count);
  }
}

=== FILE: record.dfy ===
/** The monitored-link record: its fields, its ad-count history and the
    invariant that ties the two together. */
module Record {

  /** One observation of the ad count and when it was recorded. */
  datatype HistoryEntry = HistoryEntry(count: int, changedAt: string)

  /** A tracked advertiser. `niches` is a list of niche keys. */
  datatype Link = Link(
    url: string,
    adsCount: int,
    adsHistory: seq<HistoryEntry>,
    tags: string,
    site: string,
    addedAt: string,
    niches: seq<string>
  )

  /** What the entry form emits: a record without `addedAt` and
      `adsHistory`, which the dashboard supplies. */
  datatype Candidate = Candidate(
    url: string,
    adsCount: int,
    tags: string,
    site: string,
    niches: seq<string>
  )

  /** The history is non-empty and its last count is the current count. */
  predicate HistoryConsistent(link: Link) {
    |link.adsHistory| > 0 && link.adsHistory[|link.adsHistory| - 1].count == link.adsCount
  }

  predicate AllConsistent(links: seq<Link>) {
    forall i :: 0 <= i < |links| ==> HistoryConsistent(links[i])
  }
}

=== FILE: scenarios.dfy ===
/** Worked examples: one record's life from the entry form through two
    edits, and three searches. */
module Scenarios {
  import opened Wrappers
  import opened Text
  import opened Catalog
  import opened Record
  import opened Form
  import opened Dashboard
  import Card

  const FilledForm := FormState("http://a", "10", "Testando", "", ["ed"])

  lemma FilledFormIsWellFormed()
    ensures WellFormed(FilledForm)
  {
    assert Niches[1].key == "ed";
  }

  /** Adding from the filled form stores count 10 with a one-entry history;
      editing the count to 15 appends an entry; editing only the tag then
      leaves the history at two entries. */
  lemma AddEditEditScenario()
    ensures var added := SubmitForm(Initial, FilledForm, "T0").0;
            && added.links == [Link("http://a", 10, [HistoryEntry(10, "T0")], "Testando", "", "T0", ["ed"])]
            && var s1 := StartEdit(added, 0);
               var s2 := SetEditData(s1, Card.WithCount(s1.editData.value, 15));
               var s3 := SaveEdit(s2, "T1").value;
               && s3.links[0].adsCount == 15
               && s3.links[0].adsHistory == [HistoryEntry(10, "T0"), HistoryEntry(15, "T1")]
               && var s4 := StartEdit(s3, 0);
                  var s5 := SetEditData(s4, Card.WithTags(s4.editData.value, "Novo criativo"));
                  var s6 := SaveEdit(s5, "T2").value;
                  && s6.links[0].tags == "Novo criativo"
                  && s6.links[0].adsHistory == [HistoryEntry(10, "T0"), HistoryEntry(15, "T1")]
  {
    FilledFormIsWellFormed();
    assert DigitsValue("10") == 10 by {
      assert "10"[..1] == "1";
    }
    SubmittedRecordStartsHistory(Initial, FilledForm, "T0");
  }

  /** "ed" finds any record whose niche is "ed", through the label "ED"
      that its card shows, whatever its tag. */
  lemma SearchByNicheLabel(l: Link)
    requires l.niches == ["ed"]
    ensures Visible(State([l], "ed", None, None)) == [l]
  {
    TrimTwo('e', 'd');
    EdLabelMatchesEd();
    HitFromNiche(l, "ed", "ed", 0);
    SingleRecordHit(l, "ed");
  }

  /** A lone record the query matches is the whole view. */
  lemma SingleRecordHit(l: Link, q: string)
    requires !IsBlank(q) && Matches(l, q)
    ensures Visible(State([l], q, None, None)) == [l]
  {
    assert [l][1..] == [];
  }

  /** A query matches a record when one of its niches matches it. */
  lemma HitFromNiche(l: Link, q: string, lq: string, j: nat)
    requires lq == Lower(q) && j < |l.niches| && NicheMatches(l.niches[j], lq)
    ensures Matches(l, q)
  {
  }

  /** The label "ED" with its emoji lower-cases to a text starting "ed". */
  lemma EdLabelMatchesEd()
    ensures "ed" == Lower("ed") && NicheMatches("ed", "ed")
  {
    assert FindNiche("ed") == Some(Niches[1]);
    assert Lower(Niches[1].caption)[..2] == "ed";
  }

  /** "zzz" matches neither the tag "Testando" nor the label of the niche
      "ed", so a record with just those shows nothing. */
  lemma SearchWithoutMatch(l: Link)
    requires l.tags == "Testando" && l.niches == ["ed"]
    ensures Visible(State([l], "zzz", None, None)) == []
  {
    ZzzMissesTestandoAndEd();
    SingleRecordMissByParts(l, "zzz", "zzz");
  }

  /** A lone record whose tag and every niche miss a non-blank query is
      not shown. */
  lemma SingleRecordMissByParts(l: Link, q: string, lq: string)
    requires !IsBlank(q) && lq == Lower(q)
    requires !Includes(Lower(l.tags), lq)
    requires forall j :: 0 <= j < |l.niches| ==> !NicheMatches(l.niches[j], lq)
    ensures Visible(State([l], q, None, None)) == []
  {
    MissFromParts(l, q, lq);
    SingleRecordMiss(l, q);
  }

  /** "zzz" is not blank, is already lower-case, and is contained neither
      in the lower-cased tag "Testando" nor in the label of the niche "ed". */
  lemma ZzzMissesTestandoAndEd()
    ensures !IsBlank("zzz") && "zzz" == Lower("zzz")
    ensures !Includes(Lower("Testando"), "zzz") && !NicheMatches("ed", "zzz")
  {
    QueryIsNotBlank("zzz");
    ZzzIsLower();
    TagMissesZ();
    LabelMissesZ();
  }

  lemma QueryIsNotBlank(q: string)
    requires |q| > 0 && !IsSpace(q[0])
    ensures !IsBlank(q)
  {
  }

  /** A lone record the query misses leaves the view empty. */
  lemma SingleRecordMiss(l: Link, q: string)
    requires !IsBlank(q) && !Matches(l, q)
    ensures Visible(State([l], q, None, None)) == []
  {
    NoMatchShowsNothing(State([l], q, None, None));
  }

  lemma ZzzIsLower()
    ensures "zzz" == Lower("zzz")
  {
  }

  /** A query misses a record whose tag and every niche miss it. */
  lemma MissFromParts(l: Link, q: string, lq: string)
    requires lq == Lower(q)
    requires !Includes(Lower(l.tags), lq)
    requires forall j :: 0 <= j < |l.niches| ==> !NicheMatches(l.niches[j], lq)
    ensures !Matches(l, q)
  {
  }

  lemma TagMissesZ()
    ensures !Includes(Lower("Testando"), "zzz")
  {
    var t := Lower("Testando");
    assert forall i :: 0 <= i < |t| ==> t[i] != 'z';
    MissingCharExcludes(t, "zzz");
  }

  lemma LabelMissesZ()
    ensures !NicheMatches("ed", "zzz")
  {
    assert FindNiche("ed") == Some(Niches[1]);
    var t := Lower(Niches[1].caption);
    assert forall i :: 0 <= i < |t| ==> t[i] != 'z';
    MissingCharExcludes(t, "zzz");
  }

  lemma TrimTwo(c: char, d: char)
    requires !IsSpace(c) && !IsSpace(d)
    ensures Trim([c, d]) == [c, d]
  {
    assert [c, d][..1] == [c];
  }

  /** Blank queries show the stored list as it is. */
  lemma BlankSearchShowsAll(links: seq<Link>)
    ensures Visible(State(links, "  \t", None, None)) == links
  {
    VisibleRecords(State(links, "  \t", None, None));
  }
}

=== FILE: selection.dfy ===
/** Toggling a niche key in a list of selected keys, as both the entry
    form and the card's edit mode do it. */
module Selection {
  import opened Seqs

  /** `prev.includes(key) ? prev.filter((n) => n !== key) : [...prev, key]` */
  function Toggle(selected: seq<string>, key: string): (r: seq<string>)
    ensures key in r <==> key !in selected
    ensures forall i :: 0 <= i < |r| && r[i] != key ==> r[i] in selected
    ensures forall i :: 0 <= i < |selected| && selected[i] != key ==> selected[i] in r
    ensures key !in selected ==> r == selected + [key]
  {
    if key in selected then RemoveAll(selected, key) else selected + [key]
  }

  /** Removing a key keeps the remaining keys in their order. */
  lemma ToggleOffKeepsOrder(selected: seq<string>, key: string)
    requires key in selected
    ensures IsSubsequence(Toggle(selected, key), selected)
  {
    RemoveAllIsSubsequence(selected, key);
  }

  /** A selection without repeated keys stays without repeated keys. */
  lemma ToggleKeepsNoDuplicates(selected: seq<string>, key: string)
    requires NoDuplicates(selected)
    ensures NoDuplicates(Toggle(selected, key))
  {
    if key in selected {
      RemoveAllKeepsNoDuplicates(selected, key);
    }
  }

  /** Toggling an absent key twice restores the selection. */
  lemma ToggleTwiceRestores(selected: seq<string>, key: string)
    requires key !in selected
    ensures Toggle(Toggle(selected, key), key) == selected
  {
    RemoveAllAppended(selected, key);
  }

  lemma {:induction false} RemoveAllAppended(xs: seq<string>, x: string)
    requires x !in xs
    ensures RemoveAll(xs + [x], x) == xs
  {
    if |xs| > 0 {
      assert (xs + [x])[1..] == xs[1..] + [x];
      RemoveAllAppended(xs[1..], x);
    }
  }
}

=== FILE: seqs.dfy ===
/** The two array filters the dashboard uses, stated over sequences:
    dropping every copy of a value and dropping one position. */
module Seqs {

  predicate NoDuplicates<T(==)>(xs: seq<T>) {
    forall i, j :: 0 <= i < j < |xs| ==> xs[i] != xs[j]
  }

  /** `sub` is `xs` with some elements left out and the rest in order. */
  predicate IsSubsequence<T(==)>(sub: seq<T>, xs: seq<T>)
    decreases |xs|
  {
    if |sub| == 0 then true
    else if |xs| == 0 then false
    else if sub[0] == xs[0] then IsSubsequence(sub[1..], xs[1..])
    else IsSubsequence(sub, xs[1..])
  }

  lemma {:induction false} SubsequenceOfSelf<T>(xs: seq<T>)
    ensures IsSubsequence(xs, xs)
    decreases |xs|
  {
    if |xs| > 0 {
      SubsequenceOfSelf(xs[1..]);
    }
  }

  /** Prepending an element to the longer sequence keeps a subsequence. */
  lemma {:induction false} SubsequencePrepend<T>(sub: seq<T>, y: T, ys: seq<T>)
    requires IsSubsequence(sub, ys)
    ensures IsSubsequence(sub, [y] + ys)
    decreases |ys|, 1
  {
    assert ([y] + ys)[1..] == ys;
    if |sub| > 0 && sub[0] == y {
      SubsequenceTail(sub, ys);
    }
  }

  /** Dropping the head of a subsequence keeps it a subsequence. */
  lemma {:induction false} SubsequenceTail<T>(sub: seq<T>, xs: seq<T>)
    requires |sub| > 0 && IsSubsequence(sub, xs)
    ensures IsSubsequence(sub[1..], xs)
    decreases |xs|, 0
  {
    assert [xs[0]] + xs[1..] == xs;
    if sub[0] != xs[0] {
      SubsequenceTail(sub, xs[1..]);
    }
    SubsequencePrepend(sub[1..], xs[0], xs[1..]);
  }

  /** Prepending the same element on both sides keeps a subsequence. */
  lemma SubsequenceCons<T>(x: T, sub: seq<T>, xs: seq<T>)
    requires IsSubsequence(sub, xs)
    ensures IsSubsequence([x] + sub, [x] + xs)
    ensures IsSubsequence(sub, [x] + xs)
  {
    assert ([x] + sub)[1..] == sub;
    assert ([x] + xs)[1..] == xs;
    SubsequencePrepend(sub, x, xs);
  }

  /** `xs.filter((n) => n !== x)`: every copy of `x` is dropped, everything
      else is kept in order. */
  function RemoveAll<T(==)>(xs: seq<T>, x: T): (r: seq<T>)
    ensures x !in r
    ensures forall i :: 0 <= i < |r| ==> r[i] in xs
    ensures forall i :: 0 <= i < |xs| && xs[i] != x ==> xs[i] in r
    ensures |r| <= |xs|
    ensures x !in xs ==> r == xs
    ensures multiset(r) == multiset(xs)[x := 0]
  {
    assert |xs| > 0 ==> xs == [xs[0]] + xs[1..];
    if |xs| == 0 then []
    else if xs[0] == x then RemoveAll(xs[1..], x)
    else [xs[0]] + RemoveAll(xs[1..], x)
  }

  lemma {:induction false} RemoveAllIsSubsequence<T>(xs: seq<T>, x: T)
    ensures IsSubsequence(RemoveAll(xs, x), xs)
  {
    if |xs| > 0 {
      RemoveAllIsSubsequence(xs[1..], x);
      SubsequenceCons(xs[0], RemoveAll(xs[1..], x), xs[1..]);
      assert [xs[0]] + xs[1..] == xs;
    }
  }

  lemma {:induction false} RemoveAllKeepsNoDuplicates<T>(xs: seq<T>, x: T)
    requires NoDuplicates(xs)
    ensures NoDuplicates(RemoveAll(xs, x))
  {
    if |xs| > 0 {
      RemoveAllKeepsNoDuplicates(xs[1..], x);
      var rest := RemoveAll(xs[1..], x);
      if xs[0] != x {
        assert xs[0] !in xs[1..];
        NoDuplicatesCons(xs[0], rest);
      }
    }
  }

  /** Putting a new element in front of a list without repeats keeps it
      without repeats. */
  lemma NoDuplicatesCons<T>(y: T, rest: seq<T>)
    requires NoDuplicates(rest) && y !in rest
    ensures NoDuplicates([y] + rest)
  {
    var r := [y] + rest;
    forall i, j | 0 <= i < j < |r| ensures r[i] != r[j] {
      if i > 0 { assert r[i] == rest[i - 1] && r[j] == rest[j - 1]; }
      else { assert r[j] == rest[j - 1]; }
    }
  }

  /** `xs.filter((_, i) => i !== index)`: position `index` is dropped when it
      exists; any other index leaves the sequence as it is. */
  function RemoveAt<T>(xs: seq<T>, index: int): (r: seq<T>)
    ensures 0 <= index < |xs| ==> |r| == |xs| - 1 && r == xs[..index] + xs[index + 1..]
    ensures !(0 <= index < |xs|) ==> r == xs
  {
    if |xs| == 0 then []
    else (if index == 0 then [] else [xs[0]]) + RemoveAt(xs[1..], index - 1)
  }

  lemma RemoveAtIsSubsequence<T>(xs: seq<T>, index: int)
    ensures IsSubsequence(RemoveAt(xs, index), xs)
  {
    if 0 <= index < |xs| {
      AppendSkip(xs[..index], xs[index], xs[index + 1..]);
      assert xs[..index] + [xs[index]] + xs[index + 1..] == xs;
    } else {
      SubsequenceOfSelf(xs);
    }
  }

  /** Leaving out one element in the middle gives a subsequence. */
  lemma {:induction false} AppendSkip<T>(a: seq<T>, x: T, b: seq<T>)
    ensures IsSubsequence(a + b, a + [x] + b)
    decreases |a|
  {
    if |a| == 0 {
      SubsequenceOfSelf(b);
      SubsequenceCons(x, b, b);
      assert a + b == b && a + [x] + b == [x] + b;
    } else {
      var tail := a[1..];
      AppendSkip(tail, x, b);
      SubsequenceCons(a[0], tail + b, tail + [x] + b);
      assert a == [a[0]] + tail;
      assert [a[0]] + (tail + b) == a + b;
      assert [a[0]] + (tail + [x] + b) == a + [x] + b;
    }
  }
}

=== FILE: text.dfy ===
/** The string operations the dashboard relies on: the digits-only test of
    the count field, the value JavaScript's `Number` gives a digit string,
    `toLowerCase`, `trim` and `includes`. */
module Text {

  // ---------------------------------------------------------------------
  // Digit strings
  // ---------------------------------------------------------------------

  predicate IsDigit(c: char) {
    '0' <= c <= '9'
  }

  /** The regular expression `^\d*$`: every character is an ASCII digit
      (the empty string included). */
  predicate AllDigits(s: string) {
    forall i :: 0 <= i < |s| ==> IsDigit(s[i])
  }

  function DigitValue(c: char): (d: nat)
    requires IsDigit(c)
    ensures d < 10
  {
    (c as int) - ('0' as int)
  }

  function DigitChar(d: nat): (c: char)
    requires d < 10
    ensures IsDigit(c) && DigitValue(c) == d
  {
    (('0' as int) + d) as char
  }

  /** The number a digit string denotes; the empty string denotes 0, as
      `Number("")` does. */
  function DigitsValue(s: string): (n: nat)
    requires AllDigits(s)
    ensures n == 0 <==> forall i :: 0 <= i < |s| ==> s[i] == '0'
  {
    if |s| == 0 then 0 else DigitsValue(s[..|s| - 1]) * 10 + DigitValue(s[|s| - 1])
  }

  /** The decimal text of a non-negative integer, as JavaScript renders it. */
  function Decimal(n: nat): (s: string)
    ensures |s| > 0 && AllDigits(s)
    ensures s[0] == '0' <==> n == 0
    ensures Canonical(s)
  {
    if n < 10 then [DigitChar(n)] else Decimal(n / 10) + [DigitChar(n % 10)]
  }

  /** A digit string as `Decimal` writes it: non-empty, no leading zero. */
  predicate Canonical(s: string) {
    |s| > 0 && AllDigits(s) && (s[0] == '0' ==> |s| == 1)
  }

  /** Reading back a rendered count gives the count. */
  lemma {:induction false} DigitsValueOfDecimal(n: nat)
    ensures DigitsValue(Decimal(n)) == n
  {
    var s := Decimal(n);
    if n >= 10 {
      DigitsValueOfDecimal(n / 10);
      assert s[..|s| - 1] == Decimal(n / 10);
    }
  }

  lemma {:induction false} LeadingNonZeroIsPositive(s: string)
    requires AllDigits(s) && |s| > 0 && s[0] != '0'
    ensures DigitsValue(s) > 0
  {
    if |s| > 1 {
      LeadingNonZeroIsPositive(s[..|s| - 1]);
    }
  }

  /** Rendering the value of a canonical digit string gives the string back. */
  lemma {:induction false} DecimalOfDigitsValue(s: string)
    requires Canonical(s)
    ensures Decimal(DigitsValue(s)) == s
  {
    var p := s[..|s| - 1];
    var d := DigitValue(s[|s| - 1]);
    if |p| == 0 {
      assert DigitsValue(s) == d;
      assert DigitChar(d) == s[0];
    } else {
      assert p[0] == s[0];
      LeadingNonZeroIsPositive(p);
      DecimalOfDigitsValue(p);
      var v := DigitsValue(p);
      assert DigitsValue(s) == v * 10 + d;
      assert (v * 10 + d) / 10 == v && (v * 10 + d) % 10 == d;
      assert DigitChar(d) == s[|s| - 1];
      assert s == p + [s[|s| - 1]];
    }
  }

  // ---------------------------------------------------------------------
  // Lower-casing
  // ---------------------------------------------------------------------

  /** `toLowerCase` on one character, restricted to the ASCII letters. */
  function LowerChar(c: char): char {
    if 'A' <= c <= 'Z' then ((c as int) + 32) as char else c
  }

  function Lower(s: string): (r: string)
    ensures |r| == |s|
    ensures forall i :: 0 <= i < |s| ==> r[i] == LowerChar(s[i])
    ensures forall i :: 0 <= i < |r| ==> !('A' <= r[i] <= 'Z')
  {
    if |s| == 0 then [] else [LowerChar(s[0])] + Lower(s[1..])
  }

  lemma LowerIsIdempotent(s: string)
    ensures Lower(Lower(s)) == Lower(s)
  {
    assert forall i :: 0 <= i < |s| ==> LowerChar(LowerChar(s[i])) == LowerChar(s[i]);
  }

  // ---------------------------------------------------------------------
  // Trimming
  // ---------------------------------------------------------------------

  /** The characters `String.prototype.trim` removes: white space and line
      terminators as the ECMAScript grammar lists them. */
  predicate IsSpace(c: char) {
    || c == '\t' || c == '\n' || c == '\U{0B}' || c == '\U{0C}' || c == '\r'
    || c == ' ' || c == '\U{A0}' || c == '\U{1680}'
    || ('\U{2000}' <= c <= '\U{200A}')
    || c == '\U{2028}' || c == '\U{2029}' || c == '\U{202F}' || c == '\U{205F}'
    || c == '\U{3000}' || c == '\U{FEFF}'
  }

  /** A query made of white space only (the empty one included). */
  predicate IsBlank(s: string) {
    forall i :: 0 <= i < |s| ==> IsSpace(s[i])
  }

  /** The first position at or after `i` that does not hold white space,
      or `|s|` when there is none. */
  function SkipStart(s: string, i: nat): (n: nat)
    requires i <= |s|
    ensures i <= n <= |s|
    ensures n < |s| ==> !IsSpace(s[n])
    decreases |s| - i
  {
    if i < |s| && IsSpace(s[i]) then SkipStart(s, i + 1) else i
  }

  /** The end of `s[lo..j]` once the white space at its back is dropped. */
  function SkipEnd(s: string, lo: nat, j: nat): (n: nat)
    requires lo <= j <= |s|
    ensures lo <= n <= j
    ensures n > lo ==> !IsSpace(s[n - 1])
    decreases j
  {
    if j > lo && IsSpace(s[j - 1]) then SkipEnd(s, lo, j - 1) else j
  }

  /** Everything `SkipStart` passes over is white space. */
  lemma {:induction false} SkipStartPassesSpace(s: string, i: nat)
    requires i <= |s|
    ensures forall m :: i <= m < SkipStart(s, i) ==> IsSpace(s[m])
    decreases |s| - i
  {
    if i < |s| && IsSpace(s[i]) {
      SkipStartPassesSpace(s, i + 1);
    }
  }

  /** Everything `SkipEnd` drops is white space. */
  lemma {:induction false} SkipEndDropsSpace(s: string, lo: nat, j: nat)
    requires lo <= j <= |s|
    ensures forall m :: SkipEnd(s, lo, j) <= m < j ==> IsSpace(s[m])
    decreases j
  {
    if j > lo && IsSpace(s[j - 1]) {
      SkipEndDropsSpace(s, lo, j - 1);
    }
  }

  /** `SkipEnd` never drops a character that is not white space. */
  lemma {:induction false} SkipEndKeepsNonSpace(s: string, lo: nat, j: nat)
    requires lo < j <= |s| && !IsSpace(s[lo])
    ensures SkipEnd(s, lo, j) > lo
    decreases j
  {
    if IsSpace(s[j - 1]) {
      SkipEndKeepsNonSpace(s, lo, j - 1);
    }
  }

  /** `String.prototype.trim`: the infix of `s` left once the white space at
      both ends is dropped. */
  function Trim(s: string): (r: string)
    ensures |r| <= |s|
    ensures exists k :: OccursAt(s, r, k) && IsBlank(s[..k]) && IsBlank(s[k + |r|..])
    ensures |r| > 0 ==> !IsSpace(r[0]) && !IsSpace(r[|r| - 1])
  {
    var a := SkipStart(s, 0);
    var b := SkipEnd(s, a, |s|);
    TrimFramedByBlanks(s);
    assert OccursAt(s, s[a..b], a);
    s[a..b]
  }

  /** The white space `Trim` drops at each end. */
  lemma TrimFramedByBlanks(s: string)
    ensures IsBlank(s[..SkipStart(s, 0)])
    ensures IsBlank(s[SkipEnd(s, SkipStart(s, 0), |s|)..])
  {
    var a := SkipStart(s, 0);
    SkipStartPassesSpace(s, 0);
    SkipEndDropsSpace(s, a, |s|);
  }

  /** `s.trim()` is falsy exactly for the blank strings. */
  lemma TrimEmptyIffBlank(s: string)
    ensures Trim(s) == [] <==> IsBlank(s)
  {
    var a := SkipStart(s, 0);
    SkipStartPassesSpace(s, 0);
    if a < |s| {
      SkipEndKeepsNonSpace(s, a, |s|);
    }
  }

  // ---------------------------------------------------------------------
  // Substring search
  // ---------------------------------------------------------------------

  predicate OccursAt(hay: string, needle: string, i: int) {
    0 <= i <= |hay| - |needle| && hay[i..i + |needle|] == needle
  }

  /** `hay.includes(needle)`, scanning from the left. */
  predicate Includes(hay: string, needle: string)
    ensures needle == [] ==> Includes(hay, needle)
    ensures Includes(hay, needle) ==> |needle| <= |hay|
    decreases |hay|
  {
    if needle <= hay then true
    else if |hay| == 0 then false
    else Includes(hay[1..], needle)
  }

  /** A text containing a needle contains the needle's first character. */
  lemma {:induction false} IncludesFirstChar(hay: string, needle: string)
    requires |needle| > 0
    ensures Includes(hay, needle) ==> needle[0] in hay
    decreases |hay|
  {
    if !(needle <= hay) && |hay| > 0 {
      IncludesFirstChar(hay[1..], needle);
      assert needle[0] in hay[1..] ==> needle[0] in hay;
    }
  }

  /** A text lacking the first character of a needle does not contain it. */
  lemma MissingCharExcludes(hay: string, needle: string)
    requires |needle| > 0 && needle[0] !in hay
    ensures !Includes(hay, needle)
  {
    IncludesFirstChar(hay, needle);
  }

  /** `Includes` agrees with the textbook definition of a substring. */
  lemma {:induction false} IncludesIffOccurs(hay: string, needle: string)
    ensures Includes(hay, needle) <==> exists i :: OccursAt(hay, needle, i)
    decreases |hay|
  {
    if needle <= hay {
      assert OccursAt(hay, needle, 0);
    } else if |hay| == 0 {
      assert forall i :: !OccursAt(hay, needle, i);
    } else {
      IncludesIffOccurs(hay[1..], needle);
      forall i | OccursAt(hay[1..], needle, i) ensures OccursAt(hay, needle, i + 1) {
        assert hay[i + 1..i + 1 + |needle|] == hay[1..][i..i + |needle|];
      }
      forall i | OccursAt(hay, needle, i) ensures i > 0 && OccursAt(hay[1..], needle, i - 1) {
        assert hay[i..i + |needle|] == hay[1..][i - 1..i - 1 + |needle|];
      }
    }
  }
}

=== FILE: wrappers.dfy ===
/** Optional values and results with an error, used wherever the dashboard
    code works with `null`, `undefined` or a thrown error. */
module Wrappers {

  /** A value that may be absent (`null` / `undefined` in the dashboard code). */
  datatype Option<+T> = None | Some(value: T)

  /** Either a new value or the error that stopped an event handler. */
  datatype Result<+R, +E> = Success(value: R) | Failure(error: E)
}
